=== FILE: README.md ===
# Grading-tool core in Dafny

A model of the three decision procedures inside a classroom grading tool:

- the **security pre-check** (`SecurityChecker.check_before_run`): a
  submission's text is accepted only if none of thirteen banned regular
  expressions is found anywhere in it;
- the **grading engine** (`TaskChecker.run_tests`): for tasks `1..TASK_COUNT`
  it builds an ordered dict `task_i -> bool`, scoring a task the student did
  not define as false and otherwise comparing the student's function with the
  reference on every argument tuple the reference generator yields;
- the **orchestration** of `main.py`: command dispatch, the folder name
  derived from an e-mail address, and the per-student loop of the `check`
  command (skip conditions, percentage, "nothing graded" exit).

Files, one module each:

- `results.dfy`: `Results`, with `Option` and `Result`.
- `pystrings.dfy`: `PyStrings`, the Python string operations used: `str.find`, slicing, `str.replace(c, "")`, `str(n)`.
- `security.dfy`: `Security`, for app/security.py.
- `checker.dfy`: `Checker`, for app/checker.py.
- `manager.dfy`: `Manager`, for main.py.
- `scenarios.dfy`: `Scenarios`, worked end-to-end cases.

Modelling choices:

- **Patterns.** Twelve banned expressions are plain literals: `\.` is an escaped dot. The thirteenth, `answers\.sem_[0-9][0-9]`, is a literal followed by two ASCII digits. A pattern is therefore `Pattern(literal, digits)`. `re.search` becomes an unanchored, leftmost search (`Search`).
- **Modules as records.** The reference and student modules are records whose attribute lookups are partial maps. A missing attribute (`AttributeError`) is a missing key. A task generator is the finite sequence of argument tuples it yields. Task functions are total functions of type `A -> V`, compared with `==`.
- **Report.** A report is the dict in insertion order: a sequence of `Entry(key, passed)`. The key is `"task_" + str(i)`.
- **Errors.** Raised errors become `Result` values. A malformed answer module gives `ConfigError`. The `check` command has three outcomes:
  - `Aborted`, for a configuration error or the division by zero;
  - `NothingGraded`, the `sys.exit()` when no report was made;
  - `Exported`, the table's columns and rows.
- **Percent.** The percentage is the exact pair `Ratio(passed, total)`.
- **File system.** The temporary directory is a value: a map from folder name to a map from file name to the file's text and the module that importing it yields.

A missing reference entry (`task_i` or `task_i_args` in the answer module) is detected only while grading a student who defines `task_i` (app/checker.py:24-43). A student without `task_i` gets `false` and the gap goes unnoticed; the run aborts at the first student who defines it (`Checker.UndefinedTaskNeverChecksReference`, `Scenarios.MissingCaseGenerator`).

The security verdict is a pure function of the text. Checking the same unchanged content twice therefore gives the same answer by construction, and no separate lemma states it.

## Model

| member | source | states |
|---|---|---|
| `Security.Search` | app/security.py:27 | `re.search` of one pattern finds the leftmost match, and finds nothing exactly when the pattern occurs nowhere in the text |
| `Security.SearchFrom` | app/security.py:27 | the search from a position returns the first matching position at or after it, or none when no later position matches |
| `Security.FirstBanned` | app/security.py:27 | `all(...)` stops at the first banned expression that occurs; none occurs from that index on when it finds nothing |
| `Security.CheckBeforeRun` | app/security.py:22-27 | `check_before_run`: the text is accepted exactly when no banned expression occurs anywhere in it |
| `Security.MatchRejects` | app/security.py:27 | one match of any banned expression, at any position, rejects the text |
| `Security.ShiftMatch` | app/security.py:27 | a match inside a text stays a match, shifted, inside any text containing it |
| `Security.RejectionMonotone` | app/security.py:27 | a rejected text makes every text that contains it as a substring rejected too |
| `Security.BannedLiteralRejected` | app/security.py:6-18 | each of the twelve literal expressions is rejected wherever it appears, with any text before and after |
| `Security.SemReferenceRejected` | app/security.py:19 | `answers.sem_` followed by two digits is rejected wherever it appears |
| `Security.SingleDigitSemNotMatched` | app/security.py:19 | `answers.sem_` followed by one digit and then a non-digit or the end is not a match of that expression |
| `Security.EmptyTextAccepted` | app/security.py:27 | the empty text is accepted |
| `Security.EachBannedExpressionRejectedAlone` | app/security.py:6-20 | a file holding only one of the thirteen expressions is rejected |
| `Security.ReopenRejected` | app/security.py:7 | `reopen` is rejected: the `open` expression is unanchored |
| `Security.OpenedRejected` | app/security.py:7 | `opened` is rejected |
| `Security.OpenInCommentRejected` | app/security.py:7 | `open` inside a comment is rejected: the scan ignores syntax |
| `Security.EnvironRejected` | app/security.py:13 | `.env` rejects `os.environ` |
| `Security.JsonLoadsRejected` | app/security.py:15 | `.load` rejects `json.loads` |
| `Security.JsonDumpsRejected` | app/security.py:16 | `.dump` rejects `json.dumps` |
| `Security.SubprocessCallRejected` | app/security.py:9 | a call `subprocess.run(...)` is rejected |
| `Security.TwoDigitSemRejected` | app/security.py:19 | `import answers.sem_01` is rejected |
| `Security.ThreeDigitSemRejected` | app/security.py:19 | `answers.sem_123` is rejected |
| `PyStrings.DecimalOf` | app/checker.py:31 | `str(task)` is at least one character, a single digit exactly for numbers below 10, and ends with the digit of `task % 10` |
| `PyStrings.DecimalOfDigits` | app/checker.py:31 | `str(task)` is a decimal numeral with no leading zero whose value is `task`: `int(str(task)) == task` |
| `PyStrings.DecimalOfInjective` | app/checker.py:31 | distinct task numbers give distinct `str(task)` spellings |
| `Checker.Label` | app/checker.py:31 | the key of task i is `task_` followed by `str(i)` |
| `Checker.LabelInjective` | app/checker.py:45 | distinct tasks never share a `task_{task}` key |
| `Checker.TaskLabels` | app/checker.py:23-31 | the loop's keys in order: `task_1`..`task_n`, none when `n <= 0` because `range(1, n + 1)` is empty |
| `Checker.Keys` | main.py:102 | `list(report.keys())`: one key per entry, in insertion order |
| `Checker.TaskLabelsDistinct` | app/checker.py:23 | the keys `task_1` .. `task_n` are pairwise distinct |
| `Checker.CompareAll` | app/checker.py:45-48 | `all(...)` is true exactly when student and reference agree on every case, vacuously on none; on a mismatch it has compared up to and including the first mismatching case and no further |
| `Checker.LaterCasesIgnored` | app/checker.py:45-48 | after the first mismatch, replacing the remaining cases does not change the comparison |
| `Checker.GradeFrom` | app/checker.py:23-48 | the loop over tasks i..n makes one entry per task, and its only error is a missing reference entry |
| `Checker.GradeFromStep` | app/checker.py:23-48 | one iteration: a defined task has its reference entries, and the report starts with task i's entry followed by the later iterations' report |
| `Checker.ExpectedFromAt` | app/checker.py:23-48 | entry k of the intended report is keyed `task_{i+k}` and is true iff the student defines that task and agrees with the reference on all its cases |
| `Checker.GradeFromEntries` | app/checker.py:23-48 | when the loop does not abort, its report is exactly the intended report |
| `Checker.GradeFromOutcome` | app/checker.py:24-43 | the loop succeeds exactly when every task it reaches that the student defines has a reference and cases; otherwise it aborts at the first such task |
| `Checker.RunTests` | app/checker.py:13-50 | no `TASK_COUNT` aborts with no partial result; a success has one entry per task 1..N (none for N <= 0); every other error is a missing reference entry |
| `Checker.RunTestsReport` | app/checker.py:22-50 | the keys of a report are exactly `task_1`..`task_N` in order, and entry k is true iff the student passes task k+1 |
| `Checker.RunTestsOutcome` | app/checker.py:13-50 | the run succeeds exactly when `TASK_COUNT` exists and every defined task up to N has its reference entries; otherwise it aborts at the first defined task lacking them |
| `Checker.ReportKeysIndependentOfStudent` | app/checker.py:22-23 | two successful reports for one assignment have the same keys |
| `Checker.ReportKeysDistinct` | app/checker.py:31 | the keys of a report are pairwise distinct |
| `Checker.UndefinedTaskNeverChecksReference` | app/checker.py:24-31 | a task the student lacks scores false even when its reference entry is missing |
| `PyStrings.Find` | main.py:43 | `find` gives the first index of the character, or -1 exactly when it is absent |
| `PyStrings.SliceTo` | main.py:43 | `s[:k]` is a prefix of `s`: all of `s` when k is at least its length, k characters for 0 <= k <= len, and len + k characters (at least none) for negative k, so `-1` drops the last character |
| `PyStrings.RemoveAll` | main.py:43 | `replace(".", "")` leaves no dot and keeps the count of every other character |
| `PyStrings.RemoveAllAppend` | main.py:43 | removing dots commutes with concatenation, so the other characters keep their order |
| `PyStrings.RemoveAllAbsent` | main.py:43 | a string without dots is unchanged |
| `PyStrings.RemoveSingleDot` | main.py:43 | removing the one dot between two dot-free parts joins them |
| `Manager.FolderName` | main.py:43 | a folder name never contains a dot and is no longer than the address |
| `Manager.FolderNameOfAddress` | main.py:43 | for `local@domain` with no `@` in `local`, the folder name is `local` with its dots removed |
| `Manager.FolderNameWithoutAt` | main.py:43 | with no `@`, the folder name is the address minus its last character, dots removed |
| `Manager.Roster` | main.py:36-45 | `create` builds a roster exactly when every line has a third and fourth cell with a value; it then has one student per line; a malformed line anywhere raises `IndexError` and no roster is built |
| `Manager.StudentOf` | main.py:40-44 | the student of one line: name `line[2][1]`, address `line[3][1]`, folder name derived from the address, no link |
| `Manager.RosterAt` | main.py:39-45 | student k comes from line k: name from the third cell, address from the fourth, the folder name derived from the address, no link |
| `Manager.RosterAppend` | main.py:39-45 | the roster of a table split in two is the two rosters in order, and fails exactly when either part fails |
| `Manager.Dispatch` | main.py:17-33 | `create`/`check` without an argument, or no command at all, logs an error and exits; `download` needs no argument; any other command only logs "Invalid command" |
| `Manager.DispatchRoundTrip` | main.py:17-33 | each working command's own command line, with any extra arguments, dispatches to it |
| `Manager.SolutionFile` | main.py:90-92 | the solution file of an assignment is `{sem_name}.py` |
| `Manager.Eligible` | main.py:86-99 | a student is graded when the folder exists, holds `{sem}.py`, and that file passes `check_before_run` |
| `Manager.EligibleStudents` | main.py:86-99 | only students with a folder, a solution file and a passing security check are graded |
| `Manager.EligibleStudentsMembers` | main.py:86-99 | a student is graded exactly when on the roster and passing all three conditions |
| `Manager.EligibleStudentsAppend` | main.py:83 | the graded students keep roster order |
| `Manager.CountPassed` | main.py:103 | the sum of the report's booleans is at most its length, equal iff all passed, zero iff none did; one entry counts 1 exactly when it passed |
| `Manager.CountPassedAppend` | main.py:103 | the sum is additive over concatenation, so with the one-entry case it is the number of passed tasks |
| `Manager.Percent` | main.py:103 | the percentage is the number of passed tasks over the number of tasks: 1 iff every task passed and 0 iff none did |
| `Manager.GradeStudent` | main.py:101-106 | a graded student gets a row exactly when the engine's run succeeds with `TASK_COUNT > 0`; the row carries their name, e-mail, the engine's report and its percentage; an engine error aborts with that error, and the run divides by zero exactly when `TASK_COUNT <= 0` |
| `Manager.GradeAll` | main.py:83-106 | one row per graded student, and an error only when someone is graded |
| `Manager.GradeAllSucceeds` | main.py:83-106 | the loop completes exactly when nobody is graded, or `TASK_COUNT > 0` and every graded student's engine run succeeds |
| `Manager.GradeAllFirstFailure` | main.py:83-106 | a configuration abort carries the engine error of the first graded student whose run fails, all earlier graded students' runs having succeeded |
| `Manager.GradeAllRows` | main.py:83-106 | row k is the graded row of the k-th eligible student in roster order |
| `Manager.GradeAllAborts` | main.py:101-103 | with someone graded, a missing `TASK_COUNT` or a non-positive one aborts the loop; a division by zero means `TASK_COUNT <= 0` |
| `Manager.Check` | main.py:83-111 | nothing graded iff no student is eligible; a table is exported exactly when someone is graded, `TASK_COUNT > 0` and every graded student's run succeeds; it has one row per graded student in roster order under Name, Email, `task_1`..`task_N`, Percent; a configuration abort is the first failing student's engine error |
| `Manager.ReferenceSolutionScoresFull` | main.py:103 | a student whose tasks agree with the reference on all their cases passes every task with percentage 1 |
| `Manager.EmptySolutionScoresZero` | main.py:103 | a student with no task functions fails every task with percentage 0 |
| `Scenarios.CorrectFirstTaskOnly` | app/checker.py:23-48 | `TASK_COUNT=2`, correct `task_1`, no `task_2` gives `{task_1: true, task_2: false}` and percentage 1/2 |
| `Scenarios.ConstantAnswerFailsOnFirstCase` | app/checker.py:45-48 | a constant answer fails on the first case after one comparison |
| `Scenarios.EmptyGeneratorPasses` | app/checker.py:45-48 | a task whose generator yields nothing passes |
| `Scenarios.MissingCaseGenerator` | app/checker.py:33-43 | a missing `task_2_args` aborts only for a student who defines `task_2` |
| `Scenarios.MissingTaskCountAborts` | app/checker.py:14-20 | with no `TASK_COUNT` the run is an error |
| `Scenarios.EveryoneSkipped` | main.py:86-109 | a missing folder, a missing file and a rejected file are each skipped, and with nobody graded nothing is exported |
| `Scenarios.FolderNameOfDottedAddress` | main.py:43 | `first.last@domain` gives the folder `firstlast` |
| `Scenarios.FolderNameLosesLastCharacter` | main.py:43 | an address `first.last` plus one more character and no `@` loses that last character: `john.doe` gives `johndo` |

## Left out

- Reading the submission file (app/security.py:24-25) and creating directories (app/checker.py:9-10). The text and the directory contents are inputs.
- The dynamic `eval`/`__import__` resolution of modules by constructed name (app/checker.py:15-16, 25-28, 34-39). The modules are abstract records.
  - The attribute path `.{folder}.{sem}.task_i` is Python source, and the folder name keeps every character but dots (main.py:43). A name that is not a plain identifier either fails to compile (`SyntaxError`, for example `anna-2003`), or fails while it runs (`AttributeError`, or `NameError` in `john-doe` once an earlier student's folder `john` was imported). Only `AttributeError` is caught, which scores the task false; the others abort `check`. The model grades every folder as if its name were a plain identifier. The same holds for the assignment name in both import strings.
  - A student module whose import fails with an error other than `AttributeError`, for example a syntax error in the file, aborts `check`; the model assumes every such file imports. One whose top-level code raises `AttributeError` is caught at app/checker.py:29 on every task (a failed import is not cached), so every task scores false and `check` carries on; the model expresses that file as a module defining no task, `SolutionModule(map[])`.
- Running untrusted code. Student and reference functions are total and terminate. Exceptions raised inside them, which would abort the whole `check` in the source, are not modelled. Generators are finite and drawn out in full up front.
- The two "Invalid sem file" errors are raised as `raise logging.error(...)`. Since `logging.error` returns `None`, Python actually raises a `TypeError`. Either way the run aborts, and the model records the cause (`MissingTaskCount` or `MissingReference(i)`), not the exception type.
- Reading and parsing the JSON table (main.py:38-39). `Roster` takes the parsed lines, each cell a list of strings; a cell value that is not a string is not modelled.
- `MainManager.create` beyond building the roster: cloud folders (app/drive.py), e-mail (app/notifier.py) and saving the session. These are network and file I/O.
- `MainManager.download` and `_load_session`/`_save_session` (pickle). These are network and file I/O.
- The pandas table, the CSV write, `print` and logging (main.py:111-117). `Check` returns the columns and rows instead.
- Loading config.json and the `__main__` logging setup (main.py:136-138). The argument guard at main.py:141-145 is part of `Dispatch`.
- app/models.py and app/__init__.py. Their `Student` lacks the `folder_name` field that main.py uses, so `Manager.Student` holds the fields main.py reads and writes. With app/models.py as written, `create` would fail at once: `Student(...)` at main.py:40 gets the unexpected keyword `folder_name` and lacks the required `link`, and `AppSession(students)` at main.py:47 lacks `students_count`. `Manager.Roster` models the loop main.py evidently intends, with a student record holding the fields main.py uses.
- Percent as a float. It is the exact ratio `Ratio(passed, total)`.
- `Path(temp_directory, "")` is the temporary directory itself, so in the source an empty folder name would find that directory. The model looks the empty name up like any other.

=== FILE: checker.dfy ===
/** The grading engine of app/checker.py, `TaskChecker.run_tests`.

    The reference ("answer") module and the student ("solution") module are
    reached in the source through `eval`/`__import__` of constructed names;
    here each is an abstract record whose attribute lookups are partial maps,
    so a missing attribute (the source's `AttributeError`) is a missing key.
    Task functions are total functions from an argument tuple of type `A` to
    an output of type `V` compared with `==`. */
module Checker {
  import opened Results
  import PyStrings

  /** The reference module of one assignment: `TASK_COUNT` (absent when the
      module does not define it), and `task_i` / `task_i_args` by index, the
      latter already drawn out as the finite sequence its generator yields. */
  datatype AnswerModule<!A, V> = AnswerModule(
    taskCount: Option<int>,
    reference: map<int, A -> V>,
    cases: map<int, seq<A>>)

  /** A student's module: whichever `task_i` functions it defines. */
  datatype SolutionModule<!A, V> = SolutionModule(tasks: map<int, A -> V>)

  /** One entry of the returned dict, in insertion order. */
  datatype Entry = Entry(key: string, passed: bool)
  type Report = seq<Entry>

  /** Why a run is aborted: the answer module is malformed. The source logs
      "Invalid sem file" in both cases and then raises. */
  datatype ConfigError = MissingTaskCount | MissingReference(task: int)

  /** The dict key of task `i`, `f"task_{i}"`. */
  function Label(i: nat): string {
    "task_" + PyStrings.DecimalOf(i)
  }

  /** Different tasks never share a key. */
  lemma LabelInjective(i: nat, j: nat)
    requires Label(i) == Label(j)
    ensures i == j
  {
    assert Label(i)[5..] == PyStrings.DecimalOf(i);
    assert Label(j)[5..] == PyStrings.DecimalOf(j);
    PyStrings.DecimalOfInjective(i, j);
  }

  /** The keys `task_1` .. `task_n`, in order; none for `n <= 0`, as
      `range(1, n + 1)` is then empty. */
  function TaskLabels(n: int): (ks: seq<string>)
    ensures |ks| == if n < 0 then 0 else n
    ensures forall k :: 0 <= k < |ks| ==> ks[k] == Label(k + 1)
    decreases if n < 0 then 0 else n
  {
    if n <= 0 then [] else TaskLabels(n - 1) + [Label(n)]
  }

  /** The keys of a report, in order. */
  function Keys(r: Report): (ks: seq<string>)
    ensures |ks| == |r|
    ensures forall k :: 0 <= k < |r| ==> ks[k] == r[k].key
  {
    if |r| == 0 then [] else [r[0].key] + Keys(r[1..])
  }

  /** The student's and the reference function agree on every case. */
  ghost predicate AgreeOnAll<A, V>(user: A -> V, right: A -> V, cases: seq<A>) {
    forall k :: 0 <= k < |cases| ==> user(cases[k]) == right(cases[k])
  }

  /** The value of `all(...)` over the cases and how many cases it compared
      before returning. */
  datatype Comparison = Comparison(passed: bool, compared: nat)

  /** `all(user_func(*args) == right_func(*args) for args in args_generator())`:
      passes exactly when the functions agree on every case (vacuously on no
      case), and stops at the first case where they differ. */
  function CompareAll<A, V(==)>(user: A -> V, right: A -> V, cases: seq<A>): (c: Comparison)
    ensures c.passed <==> AgreeOnAll(user, right, cases)
    ensures c.compared <= |cases|
    ensures c.passed ==> c.compared == |cases|
    ensures !c.passed ==>
      1 <= c.compared &&
      user(cases[c.compared - 1]) != right(cases[c.compared - 1]) &&
      AgreeOnAll(user, right, cases[..c.compared - 1])
  {
    if |cases| == 0 then Comparison(true, 0)
    else if user(cases[0]) != right(cases[0]) then Comparison(false, 1)
    else
      var rest := CompareAll(user, right, cases[1..]);
      assert forall k :: 1 <= k < |cases| ==> cases[k] == cases[1..][k - 1];
      if !rest.passed then
        assert cases[..rest.compared + 1][1..] == cases[1..][..rest.compared];
        Comparison(false, rest.compared + 1)
      else Comparison(true, rest.compared + 1)
  }

  /** Cases after the first mismatch are never compared: replacing them
      leaves the comparison unchanged. */
  lemma {:induction false} LaterCasesIgnored<A, V>(user: A -> V, right: A -> V, cases: seq<A>, later: seq<A>)
    requires !CompareAll(user, right, cases).passed
    ensures var n := CompareAll(user, right, cases).compared;
      CompareAll(user, right, cases[..n] + later) == CompareAll(user, right, cases)
  {
    var n := CompareAll(user, right, cases).compared;
    var cs := cases[..n] + later;
    assert cs[0] == cases[0];
    if user(cases[0]) == right(cases[0]) {
      assert cs[1..] == cases[1..][..n - 1] + later;
      LaterCasesIgnored(user, right, cases[1..], later);
    }
  }

  /** Whether the student passes task `i`: it defines `task_i` and agrees
      with the reference on every case. */
  ghost predicate Passes<A, V>(ans: AnswerModule<A, V>, sol: SolutionModule<A, V>, i: int) {
    i in sol.tasks && i in ans.reference && i in ans.cases &&
    AgreeOnAll(sol.tasks[i], ans.reference[i], ans.cases[i])
  }

  /** The answer module is complete for every task in `lo..hi` that the
      student defines; reference entries for tasks the student lacks are
      never looked up. */
  ghost predicate ConsistentFrom<A, V>(ans: AnswerModule<A, V>, sol: SolutionModule<A, V>, lo: int, hi: int) {
    forall i :: lo <= i <= hi && i in sol.tasks ==> i in ans.reference && i in ans.cases
  }

  /** The iterations `i .. n` of the task loop: one entry per task, or the
      abort on a task whose reference entry is missing. */
  function GradeFrom<A, V(==)>(ans: AnswerModule<A, V>, sol: SolutionModule<A, V>, i: nat, n: int): (r: Result<Report, ConfigError>)
    requires i >= 1
    ensures r.Ok? ==> |r.value| == (if n < i then 0 else n - i + 1)
    ensures r.Err? ==> r.error.MissingReference?
    decreases if n < i then 0 else n - i + 1
  {
    if n < i then Ok([])
    else if i !in sol.tasks then
      // No solution found for the task: scored false, loop continues.
      match GradeFrom(ans, sol, i + 1, n)
      case Err(e) => Err(e)
      case Ok(rest) => Ok([Entry(Label(i), false)] + rest)
    else if i !in ans.reference || i !in ans.cases then
      Err(MissingReference(i))
    else
      var c := CompareAll(sol.tasks[i], ans.reference[i], ans.cases[i]);
      match GradeFrom(ans, sol, i + 1, n)
      case Err(e) => Err(e)
      case Ok(rest) => Ok([Entry(Label(i), c.passed)] + rest)
  }

  /** One iteration of the loop: a report that exists starts with the entry
      for task `i`, followed by the report of the later iterations. */
  lemma GradeFromStep<A, V>(ans: AnswerModule<A, V>, sol: SolutionModule<A, V>, i: nat, n: int)
    requires 1 <= i <= n && GradeFrom(ans, sol, i, n).Ok?
    ensures GradeFrom(ans, sol, i + 1, n).Ok?
    ensures i in sol.tasks ==> i in ans.reference && i in ans.cases
    ensures GradeFrom(ans, sol, i, n).value
         == [Entry(Label(i), Passes(ans, sol, i))] + GradeFrom(ans, sol, i + 1, n).value
  {
    if i in sol.tasks {
      var c := CompareAll(sol.tasks[i], ans.reference[i], ans.cases[i]);
      assert c.passed == Passes(ans, sol, i);
    }
  }

  /** The report the loop is meant to produce for tasks `i .. n`: one entry
      per task, keyed `task_j` and true exactly when the student passes
      task `j`. */
  ghost function ExpectedFrom<A, V>(ans: AnswerModule<A, V>, sol: SolutionModule<A, V>, i: nat, n: int): (r: seq<Entry>)
    ensures |r| == if n < i then 0 else n - i + 1
    decreases if n < i then 0 else n - i + 1
  {
    if n < i then [] else [Entry(Label(i), Passes(ans, sol, i))] + ExpectedFrom(ans, sol, i + 1, n)
  }

  /** Entry `k` of the intended report is the one for task `i + k`. */
  lemma {:induction false} ExpectedFromAt<A, V>(ans: AnswerModule<A, V>, sol: SolutionModule<A, V>, i: nat, n: int, k: nat)
    requires i + k <= n
    ensures ExpectedFrom(ans, sol, i, n)[k] == Entry(Label(i + k), Passes(ans, sol, i + k))
    decreases k
  {
    if k > 0 {
      ExpectedFromAt(ans, sol, i + 1, n, k - 1);
    }
  }

  /** Whenever the loop does not abort, its report is the intended one. */
  lemma {:induction false} GradeFromEntries<A, V>(ans: AnswerModule<A, V>, sol: SolutionModule<A, V>, i: nat, n: int)
    requires i >= 1 && GradeFrom(ans, sol, i, n).Ok?
    ensures GradeFrom(ans, sol, i, n).value == ExpectedFrom(ans, sol, i, n)
    decreases if n < i then 0 else n - i + 1
  {
    if i <= n {
      GradeFromStep(ans, sol, i, n);
      GradeFromEntries(ans, sol, i + 1, n);
    }
  }

  /** The loop succeeds exactly when every task it reaches that the student
      defines has its reference entry; otherwise it aborts at the first task
      that does not. */
  lemma {:induction false} GradeFromOutcome<A, V>(ans: AnswerModule<A, V>, sol: SolutionModule<A, V>, i: nat, n: int)
    requires i >= 1
    ensures GradeFrom(ans, sol, i, n).Ok? <==> ConsistentFrom(ans, sol, i, n)
    ensures GradeFrom(ans, sol, i, n).Err? ==>
      var t := GradeFrom(ans, sol, i, n).error.task;
      i <= t <= n && t in sol.tasks && !(t in ans.reference && t in ans.cases) &&
      ConsistentFrom(ans, sol, i, t - 1)
    decreases if n < i then 0 else n - i + 1
  {
    if i <= n {
      GradeFromOutcome(ans, sol, i + 1, n);
    }
  }

  /** `run_tests`. A missing `TASK_COUNT` aborts before any task; otherwise
      the report has one entry per task `1 .. TASK_COUNT`. */
  function RunTests<A, V(==)>(ans: AnswerModule<A, V>, sol: SolutionModule<A, V>): (r: Result<Report, ConfigError>)
    ensures ans.taskCount.None? ==> r == Err(MissingTaskCount)
    ensures ans.taskCount.Some? && r.Err? ==> r.error.MissingReference?
    ensures r.Ok? ==> ans.taskCount.Some?
    ensures r.Ok? ==> |r.value| == if ans.taskCount.value < 0 then 0 else ans.taskCount.value
  {
    match ans.taskCount
    case None => Err(MissingTaskCount)
    case Some(n) => GradeFrom(ans, sol, 1, n)
  }

  /** A successful report has exactly the keys `task_1` .. `task_N` in
      order, each true exactly when the student defines the task and agrees
      with the reference on every case. */
  lemma RunTestsReport<A, V>(ans: AnswerModule<A, V>, sol: SolutionModule<A, V>)
    requires RunTests(ans, sol).Ok?
    ensures Keys(RunTests(ans, sol).value) == TaskLabels(ans.taskCount.value)
    ensures var r := RunTests(ans, sol).value;
      forall k :: 0 <= k < |r| ==> r[k].passed == Passes(ans, sol, k + 1)
  {
    var n, r := ans.taskCount.value, RunTests(ans, sol).value;
    GradeFromEntries(ans, sol, 1, n);
    forall k | 0 <= k < |r|
      ensures r[k] == Entry(Label(k + 1), Passes(ans, sol, k + 1))
    {
      ExpectedFromAt(ans, sol, 1, n, k);
    }
    assert Keys(r) == TaskLabels(n);
  }

  /** `run_tests` succeeds exactly when `TASK_COUNT` exists and every task
      the student defines has its reference function and cases; otherwise
      it aborts at the first task the student defines that lacks them. */
  lemma RunTestsOutcome<A, V>(ans: AnswerModule<A, V>, sol: SolutionModule<A, V>)
    ensures RunTests(ans, sol).Ok? <==> ans.taskCount.Some? && ConsistentFrom(ans, sol, 1, ans.taskCount.value)
    ensures RunTests(ans, sol).Err? && ans.taskCount.Some? ==>
      var t := RunTests(ans, sol).error.task;
      1 <= t <= ans.taskCount.value && t in sol.tasks &&
      !(t in ans.reference && t in ans.cases) && ConsistentFrom(ans, sol, 1, t - 1)
  {
    if ans.taskCount.Some? {
      GradeFromOutcome(ans, sol, 1, ans.taskCount.value);
    }
  }

  /** The keys of every successful report depend on the answer module only,
      so all students graded on one assignment share the same columns. */
  lemma ReportKeysIndependentOfStudent<A, V>(ans: AnswerModule<A, V>, s1: SolutionModule<A, V>, s2: SolutionModule<A, V>)
    requires RunTests(ans, s1).Ok? && RunTests(ans, s2).Ok?
    ensures Keys(RunTests(ans, s1).value) == Keys(RunTests(ans, s2).value)
  {
    RunTestsReport(ans, s1);
    RunTestsReport(ans, s2);
  }

  /** `task_1` .. `task_n` are pairwise distinct. */
  lemma TaskLabelsDistinct(n: int)
    ensures forall j, k :: 0 <= j < k < |TaskLabels(n)| ==> TaskLabels(n)[j] != TaskLabels(n)[k]
  {
    var ks := TaskLabels(n);
    forall j, k | 0 <= j < k < |ks|
      ensures ks[j] != ks[k]
    {
      if ks[j] == ks[k] {
        LabelInjective(j + 1, k + 1);
      }
    }
  }

  /** The keys of a report are pairwise distinct, so the ordered list is a
      faithful picture of the dict. */
  lemma ReportKeysDistinct<A, V>(ans: AnswerModule<A, V>, sol: SolutionModule<A, V>)
    requires RunTests(ans, sol).Ok?
    ensures var r := RunTests(ans, sol).value;
      forall j, k :: 0 <= j < k < |r| ==> r[j].key != r[k].key
  {
    var r := RunTests(ans, sol).value;
    var ks := Keys(r);
    RunTestsReport(ans, sol);
    TaskLabelsDistinct(ans.taskCount.value);
    assert forall j, k :: 0 <= j < k < |r| ==> ks[j] != ks[k];
  }

  /** A task the student does not define is false even when its reference
      entry is missing: the malformed entry goes undetected. */
  lemma UndefinedTaskNeverChecksReference<A, V>(ans: AnswerModule<A, V>, sol: SolutionModule<A, V>, t: int)
    requires ans.taskCount.Some? && 1 <= t <= ans.taskCount.value
    requires t !in sol.tasks
    requires ConsistentFrom(ans, sol, 1, t - 1) && ConsistentFrom(ans, sol, t + 1, ans.taskCount.value)
    ensures RunTests(ans, sol).Ok?
    ensures RunTests(ans, sol).value[t - 1] == Entry(Label(t), false)
  {
    RunTestsOutcome(ans, sol);
    RunTestsReport(ans, sol);
    assert Keys(RunTests(ans, sol).value)[t - 1] == Label(t);
  }
}

=== FILE: manager.dfy ===
/** The orchestration in main.py: command dispatch, the folder name derived
    from a student's e-mail address, and the per-student grading loop of the
    `check` command.

    Cloud storage, e-mail, session pickling, the CSV export and logging are
    not modelled; the local temporary directory is an input value and the
    import of a student's file is the solution module recorded beside its
    text. */
module Manager {
  import opened Results
  import PyStrings
  import Security
  import Checker

  /** A roster entry: the fields main.py reads and writes. */
  datatype Student = Student(name: string, email: string, folderName: string, link: Option<string>)

  /** `email[: email.find("@")].replace(".", "")`. */
  function FolderName(email: string): (r: string)
    ensures '.' !in r
    ensures |r| <= |email|
  {
    PyStrings.RemoveAll(PyStrings.SliceTo(email, PyStrings.Find(email, '@')), '.')
  }

  /** With an `@`, the folder name is the part before the first `@`, dots
      removed. */
  lemma {:induction false} FolderNameOfAddress(local: string, domain: string)
    requires '@' !in local
    ensures FolderName(local + "@" + domain) == PyStrings.RemoveAll(local, '.')
  {
    var email := local + "@" + domain;
    assert email[|local|] == '@';
    assert email[..|local|] == local;
    var f := PyStrings.Find(email, '@');
    assert f == |local|;
  }

  /** Without an `@`, `find` yields -1 and the slice drops only the last
      character before the dots are removed. */
  lemma FolderNameWithoutAt(email: string)
    requires '@' !in email && |email| > 0
    ensures FolderName(email) == PyStrings.RemoveAll(email[..|email| - 1], '.')
  {
  }

  /** One line of the input table: a list of cells, each itself a list whose
      second element is the value. */
  type Line = seq<seq<string>>

  /** The source reads `line[2][1]` and `line[3][1]`; a shorter line or cell
      raises `IndexError`. */
  predicate WellFormedLine(line: Line) {
    |line| >= 4 && |line[2]| >= 2 && |line[3]| >= 2
  }

  /** The student of one line: name from the third cell, address from the
      fourth, folder name derived from the address, no link yet. */
  function StudentOf(line: Line): Student
    requires WellFormedLine(line)
  {
    Student(line[2][1], line[3][1], FolderName(line[3][1]), None)
  }

  /** The roster `create` builds from the table: one student per line, in
      order. A malformed line anywhere aborts `create`, so there is no
      roster at all. */
  function Roster(table: seq<Line>): (r: Option<seq<Student>>)
    ensures r.Some? <==> forall k :: 0 <= k < |table| ==> WellFormedLine(table[k])
    ensures r.Some? ==> |r.value| == |table|
  {
    if |table| == 0 then Some([])
    else if !WellFormedLine(table[0]) then None
    else match Roster(table[1..])
      case None => None
      case Some(rest) => Some([StudentOf(table[0])] + rest)
  }

  /** Student `k` of the roster comes from line `k` of the table. */
  lemma {:induction false} RosterAt(table: seq<Line>, k: nat)
    requires Roster(table).Some? && k < |table|
    ensures var s := Roster(table).value[k];
      s.name == table[k][2][1] && s.email == table[k][3][1] &&
      s.folderName == FolderName(table[k][3][1]) && s.link.None?
    decreases k
  {
    if k > 0 {
      assert table[1..][k - 1] == table[k];
      RosterAt(table[1..], k - 1);
    }
  }

  /** Reading a table in two parts gives the two rosters one after the
      other, and no roster when either part has a malformed line. */
  lemma {:induction false} RosterAppend(a: seq<Line>, b: seq<Line>)
    ensures Roster(a + b).Some? <==> Roster(a).Some? && Roster(b).Some?
    ensures Roster(a + b).Some? ==> Roster(a + b).value == Roster(a).value + Roster(b).value
  {
    if |a| == 0 {
      assert a + b == b;
    } else {
      assert (a + b)[0] == a[0];
      assert (a + b)[1..] == a[1..] + b;
      RosterAppend(a[1..], b);
    }
  }

  // ---------------------------------------------------------------- dispatch

  /** What one invocation does. */
  datatype Action =
    | RunCreate(tablePath: string)
    | RunCheck(semName: string)
    | RunDownload
    | ExitWithError(message: string)  // logged, then `sys.exit()`
    | LogOnly(message: string)        // logged, nothing else happens

  /** The guard in the `__main__` block followed by `MainManager.process`. */
  function Dispatch(argv: seq<string>): (a: Action)
    ensures a.RunCreate? ==> |argv| >= 3 && argv[1] == "create" && a.tablePath == argv[2]
    ensures a.RunCheck? ==> |argv| >= 3 && argv[1] == "check" && a.semName == argv[2]
    ensures a.RunDownload? <==> |argv| >= 2 && argv[1] == "download"
    ensures a.LogOnly? <==> |argv| >= 2 && argv[1] !in {"create", "check", "download"}
    ensures a.ExitWithError? <==>
      |argv| < 2 || (|argv| < 3 && argv[1] in {"create", "check"})
  {
    if |argv| < 2 then ExitWithError("The command has not been entered")
    else
      var command := argv[1];
      if command == "create" then
        if |argv| < 3 then ExitWithError("No input file") else RunCreate(argv[2])
      else if command == "check" then
        if |argv| < 3 then ExitWithError("No input name") else RunCheck(argv[2])
      else if command == "download" then RunDownload
      else LogOnly("Invalid command")
  }

  /** A command line that asks for `a`: the program name, the command word
      and its argument. */
  function CommandLine(a: Action): seq<string>
  {
    match a
    case RunCreate(p) => ["main.py", "create", p]
    case RunCheck(s) => ["main.py", "check", s]
    case RunDownload => ["main.py", "download"]
    case ExitWithError(_) => ["main.py"]
    case LogOnly(m) => ["main.py", m]
  }

  /** Every command that does work is reached from its own command line,
      whatever follows the required arguments. */
  lemma DispatchRoundTrip(a: Action, extra: seq<string>)
    requires a.RunCreate? || a.RunCheck? || a.RunDownload?
    ensures Dispatch(CommandLine(a) + extra) == a
  {
    var argv := CommandLine(a) + extra;
    assert argv[1] == CommandLine(a)[1];
    if !a.RunDownload? {
      assert argv[2] == CommandLine(a)[2];
    }
  }

  // ------------------------------------------------------------- check loop

  /** A file in the temporary directory: its text and what importing it
      yields. */
  datatype SourceFile<!A, V> = SourceFile(text: string, solution: Checker.SolutionModule<A, V>)

  /** The temporary download directory: per student folder, its files. */
  datatype Workspace<!A, V> = Workspace(folders: map<string, map<string, SourceFile<A, V>>>)

  /** The solution file name for an assignment, `f"{sem_name}.py"`. */
  function SolutionFile(sem: string): string {
    sem + ".py"
  }

  /** A student is graded when the folder exists, holds the solution file,
      and that file passes the security pre-check. */
  predicate Eligible<A, V>(s: Student, ws: Workspace<A, V>, sem: string) {
    s.folderName in ws.folders &&
    SolutionFile(sem) in ws.folders[s.folderName] &&
    Security.CheckBeforeRun(ws.folders[s.folderName][SolutionFile(sem)].text)
  }

  /** The graded students, in roster order. */
  function EligibleStudents<A, V>(students: seq<Student>, ws: Workspace<A, V>, sem: string): (g: seq<Student>)
    ensures |g| <= |students|
    ensures forall k :: 0 <= k < |g| ==> Eligible(g[k], ws, sem)
  {
    if |students| == 0 then []
    else
      var rest := EligibleStudents(students[1..], ws, sem);
      if Eligible(students[0], ws, sem) then [students[0]] + rest else rest
  }

  /** Exactly the eligible members of the roster are graded. */
  lemma {:induction false} EligibleStudentsMembers<A, V>(students: seq<Student>, ws: Workspace<A, V>, sem: string, s: Student)
    ensures s in EligibleStudents(students, ws, sem) <==> s in students && Eligible(s, ws, sem)
  {
    if |students| > 0 {
      EligibleStudentsMembers(students[1..], ws, sem, s);
      assert s in students <==> s == students[0] || s in students[1..];
    }
  }

  /** Filtering keeps roster order: the graded students of two roster
      segments are those of the first followed by those of the second. */
  lemma {:induction false} EligibleStudentsAppend<A, V>(a: seq<Student>, b: seq<Student>, ws: Workspace<A, V>, sem: string)
    ensures EligibleStudents(a + b, ws, sem) == EligibleStudents(a, ws, sem) + EligibleStudents(b, ws, sem)
  {
    if |a| == 0 {
      assert a + b == b;
    } else {
      var ab := a + b;
      assert ab[0] == a[0];
      assert ab[1..] == a[1..] + b;
      EligibleStudentsAppend(a[1..], b, ws, sem);
      var head := if Eligible(a[0], ws, sem) then [a[0]] else [];
      assert EligibleStudents(ab, ws, sem) == head + EligibleStudents(ab[1..], ws, sem);
      assert EligibleStudents(a, ws, sem) == head + EligibleStudents(a[1..], ws, sem);
    }
  }

  /** `Percent` as the exact fraction passed / total. */
  datatype Ratio = Ratio(passed: nat, total: nat)

  /** The number of passed tasks, `sum(report.values())`. */
  function CountPassed(r: Checker.Report): (n: nat)
    ensures n <= |r|
    ensures n == |r| <==> forall k :: 0 <= k < |r| ==> r[k].passed
    ensures n == 0 <==> forall k :: 0 <= k < |r| ==> !r[k].passed
    ensures |r| == 1 ==> n == if r[0].passed then 1 else 0
  {
    if |r| == 0 then 0
    else
      assert forall k :: 1 <= k < |r| ==> r[k] == r[1..][k - 1];
      (if r[0].passed then 1 else 0) + CountPassed(r[1..])
  }

  /** Counting is additive over the report, so with a single entry counting
      one exactly when it passed, the count is the number of passed tasks. */
  lemma {:induction false} CountPassedAppend(a: Checker.Report, b: Checker.Report)
    ensures CountPassed(a + b) == CountPassed(a) + CountPassed(b)
  {
    if |a| == 0 {
      assert a + b == b;
    } else {
      assert (a + b)[0] == a[0];
      assert (a + b)[1..] == a[1..] + b;
      CountPassedAppend(a[1..], b);
    }
  }

  /** The share of passed tasks: between 0 and 1, 1 exactly when every task
      passed and 0 exactly when none did. */
  function Percent(r: Checker.Report): (p: Ratio)
    requires |r| > 0
    ensures p.total == |r| && p.passed == CountPassed(r)
    ensures p.passed == p.total <==> forall k :: 0 <= k < |r| ==> r[k].passed
    ensures p.passed == 0 <==> forall k :: 0 <= k < |r| ==> !r[k].passed
  {
    Ratio(CountPassed(r), |r|)
  }

  /** One line of the exported table. */
  datatype Row = Row(name: string, email: string, report: Checker.Report, percent: Ratio)

  /** Why `check` stops without a table: the answer module is malformed, or
      a report has no tasks and the percentage divides by zero. */
  datatype CheckError = Config(error: Checker.ConfigError) | ZeroDivision

  /** The student's imported module for the assignment. */
  function Submitted<A, V>(s: Student, ws: Workspace<A, V>, sem: string): Checker.SolutionModule<A, V>
    requires Eligible(s, ws, sem)
  {
    ws.folders[s.folderName][SolutionFile(sem)].solution
  }

  /** The row of one graded student, or the error that aborts the run. */
  function GradeStudent<A, V(==)>(s: Student, ws: Workspace<A, V>, ans: Checker.AnswerModule<A, V>, sem: string): (r: Result<Row, CheckError>)
    requires Eligible(s, ws, sem)
    ensures r.Ok? ==> r.value.name == s.name && r.value.email == s.email
    ensures r.Ok? ==> Checker.RunTests(ans, Submitted(s, ws, sem)) == Ok(r.value.report)
    ensures r.Ok? ==> |r.value.report| > 0 && r.value.percent == Percent(r.value.report)
    ensures ans.taskCount.None? ==> r == Err(Config(Checker.MissingTaskCount))
    ensures r == Err(ZeroDivision) <==> ans.taskCount.Some? && ans.taskCount.value <= 0
    ensures Checker.RunTests(ans, Submitted(s, ws, sem)).Err? ==>
      r == Err(Config(Checker.RunTests(ans, Submitted(s, ws, sem)).error))
    ensures (Checker.RunTests(ans, Submitted(s, ws, sem)).Ok? && ans.taskCount.Some? &&
             ans.taskCount.value > 0) ==> r.Ok?
  {
    match Checker.RunTests(ans, Submitted(s, ws, sem))
    case Err(e) => Err(Config(e))
    case Ok(report) =>
      if |report| == 0 then Err(ZeroDivision)
      else Ok(Row(s.name, s.email, report, Percent(report)))
  }

  /** The loop over the roster: ineligible students are skipped, the others
      graded in order; the first error ends the run, so an error can only
      come from a graded student. */
  function GradeAll<A, V(==)>(students: seq<Student>, ws: Workspace<A, V>, ans: Checker.AnswerModule<A, V>, sem: string): (r: Result<seq<Row>, CheckError>)
    ensures r.Ok? ==> |r.value| == |EligibleStudents(students, ws, sem)|
    ensures r.Err? ==> |EligibleStudents(students, ws, sem)| > 0
  {
    if |students| == 0 then Ok([])
    else if !Eligible(students[0], ws, sem) then GradeAll(students[1..], ws, ans, sem)
    else match GradeStudent(students[0], ws, ans, sem)
      case Err(e) => Err(e)
      case Ok(row) =>
        match GradeAll(students[1..], ws, ans, sem)
        case Err(e) => Err(e)
        case Ok(rows) => Ok([row] + rows)
  }

  /** Student `s` was graded and `row` is their row. */
  ghost predicate Graded<A, V>(s: Student, row: Row, ws: Workspace<A, V>, ans: Checker.AnswerModule<A, V>, sem: string) {
    Eligible(s, ws, sem) && GradeStudent(s, ws, ans, sem) == Ok(row)
  }

  /** Row `k` is the graded report of student `k`, for every `k`. */
  ghost predicate RowsMatch<A, V>(g: seq<Student>, rows: seq<Row>, ws: Workspace<A, V>, ans: Checker.AnswerModule<A, V>, sem: string) {
    |g| == |rows| && forall k :: 0 <= k < |rows| ==> Graded(g[k], rows[k], ws, ans, sem)
  }

  /** A pointwise relation between two sequences extends to a common new head. */
  lemma PointwiseCons<X, Y>(p: (X, Y) -> bool, x: X, y: Y, xs: seq<X>, ys: seq<Y>)
    requires |xs| == |ys| && p(x, y)
    requires forall k :: 0 <= k < |xs| ==> p(xs[k], ys[k])
    ensures forall k :: 0 <= k < |xs| + 1 ==> p(([x] + xs)[k], ([y] + ys)[k])
  {
    forall k | 1 <= k < |xs| + 1
      ensures p(([x] + xs)[k], ([y] + ys)[k])
    {
      assert ([x] + xs)[k] == xs[k - 1] && ([y] + ys)[k] == ys[k - 1];
    }
  }

  /** Row `k` is the graded report of the `k`-th graded student. */
  lemma {:induction false} GradeAllRows<A, V>(students: seq<Student>, ws: Workspace<A, V>, ans: Checker.AnswerModule<A, V>, sem: string)
    requires GradeAll(students, ws, ans, sem).Ok?
    ensures RowsMatch(EligibleStudents(students, ws, sem), GradeAll(students, ws, ans, sem).value, ws, ans, sem)
  {
    if |students| > 0 {
      var s, tail := students[0], students[1..];
      GradeAllRows(tail, ws, ans, sem);
      if Eligible(s, ws, sem) {
        var row := GradeStudent(s, ws, ans, sem).value;
        var p := (x, y) => Graded(x, y, ws, ans, sem);
        PointwiseCons(p, s, row, EligibleStudents(tail, ws, sem), GradeAll(tail, ws, ans, sem).value);
      }
    }
  }

  /** The run aborts exactly as the first graded student's grading does:
      with no `TASK_COUNT`, on the missing attribute; with `TASK_COUNT <= 0`,
      on the division by zero in the percentage. */
  lemma {:induction false} GradeAllAborts<A, V>(students: seq<Student>, ws: Workspace<A, V>, ans: Checker.AnswerModule<A, V>, sem: string)
    ensures var r := GradeAll(students, ws, ans, sem);
      (|EligibleStudents(students, ws, sem)| > 0 && ans.taskCount.None? ==>
         r == Err(Config(Checker.MissingTaskCount))) &&
      (|EligibleStudents(students, ws, sem)| > 0 && ans.taskCount.Some? && ans.taskCount.value <= 0 ==>
         r == Err(ZeroDivision)) &&
      (r == Err(ZeroDivision) ==> ans.taskCount.Some? && ans.taskCount.value <= 0)
  {
    if |students| > 0 {
      GradeAllAborts(students[1..], ws, ans, sem);
    }
  }

  /** Student `s` is graded and the engine's run for them completes. */
  ghost predicate RunSucceeds<A, V>(s: Student, ws: Workspace<A, V>, ans: Checker.AnswerModule<A, V>, sem: string) {
    Eligible(s, ws, sem) && Checker.RunTests(ans, Submitted(s, ws, sem)).Ok?
  }

  /** A property holds of every element of `[x] + xs` exactly when it holds
      of `x` and of every element of `xs`. */
  lemma AllCons<X>(p: X -> bool, x: X, xs: seq<X>)
    ensures (forall k :: 0 <= k < |xs| + 1 ==> p(([x] + xs)[k])) <==>
      p(x) && forall k :: 0 <= k < |xs| ==> p(xs[k])
  {
    if p(x) && forall k :: 0 <= k < |xs| ==> p(xs[k]) {
      forall k | 1 <= k < |xs| + 1
        ensures p(([x] + xs)[k])
      {
        assert ([x] + xs)[k] == xs[k - 1];
      }
    }
    if forall k :: 0 <= k < |xs| + 1 ==> p(([x] + xs)[k]) {
      assert ([x] + xs)[0] == x;
      forall k | 0 <= k < |xs|
        ensures p(xs[k])
      {
        assert ([x] + xs)[k + 1] == xs[k];
      }
    }
  }

  /** The loop completes exactly when nobody is graded, or `TASK_COUNT` is
      positive and every graded student's run completes. */
  lemma {:induction false} GradeAllSucceeds<A, V>(students: seq<Student>, ws: Workspace<A, V>, ans: Checker.AnswerModule<A, V>, sem: string)
    ensures var g := EligibleStudents(students, ws, sem);
      GradeAll(students, ws, ans, sem).Ok? <==>
        |g| == 0 ||
        (ans.taskCount.Some? && ans.taskCount.value > 0 &&
         forall k :: 0 <= k < |g| ==> RunSucceeds(g[k], ws, ans, sem))
  {
    if |students| > 0 {
      var s, tail := students[0], students[1..];
      GradeAllSucceeds(tail, ws, ans, sem);
      if Eligible(s, ws, sem) {
        AllCons((x: Student) => RunSucceeds(x, ws, ans, sem), s, EligibleStudents(tail, ws, sem));
      }
    }
  }

  /** Student `k` of `g` is the first whose run fails, and it fails with `e`. */
  ghost predicate FirstFailureAt<A, V>(g: seq<Student>, k: int, e: Checker.ConfigError, ws: Workspace<A, V>, ans: Checker.AnswerModule<A, V>, sem: string) {
    0 <= k < |g| && (forall j :: 0 <= j < k ==> RunSucceeds(g[j], ws, ans, sem)) &&
    Eligible(g[k], ws, sem) && Checker.RunTests(ans, Submitted(g[k], ws, sem)) == Err(e)
  }

  /** A first failure stays the first one behind a student whose run succeeds. */
  lemma FirstFailureCons<A, V>(s: Student, g: seq<Student>, k: int, e: Checker.ConfigError, ws: Workspace<A, V>, ans: Checker.AnswerModule<A, V>, sem: string)
    requires RunSucceeds(s, ws, ans, sem) && FirstFailureAt(g, k, e, ws, ans, sem)
    ensures FirstFailureAt([s] + g, k + 1, e, ws, ans, sem)
  {
    var g' := [s] + g;
    forall j | 0 <= j < k + 1
      ensures RunSucceeds(g'[j], ws, ans, sem)
    {
      if j > 0 {
        assert g'[j] == g[j - 1];
      }
    }
    assert g'[k + 1] == g[k];
  }

  /** A configuration error ending the loop is the error of the first graded
      student whose run fails. */
  lemma {:induction false} GradeAllFirstFailure<A, V>(students: seq<Student>, ws: Workspace<A, V>, ans: Checker.AnswerModule<A, V>, sem: string)
    requires GradeAll(students, ws, ans, sem).Err? && GradeAll(students, ws, ans, sem).error.Config?
    ensures exists k :: FirstFailureAt(EligibleStudents(students, ws, sem), k,
                                       GradeAll(students, ws, ans, sem).error.error, ws, ans, sem)
  {
    var s, tail := students[0], students[1..];
    var g, gt := EligibleStudents(students, ws, sem), EligibleStudents(tail, ws, sem);
    var e := GradeAll(students, ws, ans, sem).error.error;
    if !Eligible(s, ws, sem) {
      GradeAllFirstFailure(tail, ws, ans, sem);
      assert g == gt && GradeAll(students, ws, ans, sem) == GradeAll(tail, ws, ans, sem);
    } else if Checker.RunTests(ans, Submitted(s, ws, sem)).Err? {
      assert g[0] == s;
      assert FirstFailureAt(g, 0, e, ws, ans, sem);
    } else {
      assert GradeStudent(s, ws, ans, sem).Ok?;
      assert GradeAll(tail, ws, ans, sem) == GradeAll(students, ws, ans, sem);
      GradeAllFirstFailure(tail, ws, ans, sem);
      var k :| FirstFailureAt(gt, k, e, ws, ans, sem);
      FirstFailureCons(s, gt, k, e, ws, ans, sem);
    }
  }

  /** The outcome of the `check` command. */
  datatype CheckOutcome =
    | Aborted(error: CheckError)
    | NothingGraded                                  // `sys.exit()` before any report
    | Exported(columns: seq<string>, rows: seq<Row>)  // the CSV table

  /** `MainManager.check`: the rows of the graded students in roster order,
      under the columns Name, Email, the task keys of the last report and
      Percent. */
  function Check<A, V(==)>(students: seq<Student>, ws: Workspace<A, V>, ans: Checker.AnswerModule<A, V>, sem: string): (o: CheckOutcome)
    ensures o.NothingGraded? <==> |EligibleStudents(students, ws, sem)| == 0
    ensures o.Exported? ==> |o.rows| == |EligibleStudents(students, ws, sem)| > 0
    ensures o.Exported? ==> ans.taskCount.Some? && ans.taskCount.value > 0
    ensures o.Exported? ==>
      o.columns == ["Name", "Email"] + Checker.TaskLabels(ans.taskCount.value) + ["Percent"]
    ensures o.Exported? ==> forall k :: 0 <= k < |o.rows| ==>
      var s := EligibleStudents(students, ws, sem)[k];
      Eligible(s, ws, sem) && Checker.RunTests(ans, Submitted(s, ws, sem)).Ok? &&
      o.rows[k].name == s.name && o.rows[k].email == s.email &&
      o.rows[k].report == Checker.RunTests(ans, Submitted(s, ws, sem)).value &&
      |o.rows[k].report| > 0 && o.rows[k].percent == Percent(o.rows[k].report)
    ensures o.Aborted? ==> |EligibleStudents(students, ws, sem)| > 0
    ensures o == Aborted(ZeroDivision) <==>
      |EligibleStudents(students, ws, sem)| > 0 && ans.taskCount.Some? && ans.taskCount.value <= 0
    ensures |EligibleStudents(students, ws, sem)| > 0 && ans.taskCount.None? ==>
      o == Aborted(Config(Checker.MissingTaskCount))
    ensures var g := EligibleStudents(students, ws, sem);
      o.Exported? <==>
        |g| > 0 && ans.taskCount.Some? && ans.taskCount.value > 0 &&
        forall k :: 0 <= k < |g| ==> RunSucceeds(g[k], ws, ans, sem)
    ensures o.Aborted? && o.error.Config? ==>
      exists k :: FirstFailureAt(EligibleStudents(students, ws, sem), k, o.error.error, ws, ans, sem)
  {
    GradeAllAborts(students, ws, ans, sem);
    GradeAllSucceeds(students, ws, ans, sem);
    match GradeAll(students, ws, ans, sem)
    case Err(e) =>
      if e.Config? then GradeAllFirstFailure(students, ws, ans, sem); Aborted(e)
      else Aborted(e)
    case Ok(rows) =>
      GradeAllRows(students, ws, ans, sem);
      if |rows| == 0 then NothingGraded
      else
        var last := EligibleStudents(students, ws, sem)[|rows| - 1];
        Checker.RunTestsReport(ans, Submitted(last, ws, sem));
        Exported(["Name", "Email"] + Checker.Keys(rows[|rows| - 1].report) + ["Percent"], rows)
  }

  // ------------------------------------------------------- score boundaries

  /** A student whose every task agrees with the reference on all of its
      cases scores every task true and the full percentage. */
  lemma ReferenceSolutionScoresFull<A, V>(ans: Checker.AnswerModule<A, V>, sol: Checker.SolutionModule<A, V>)
    requires ans.taskCount.Some? && ans.taskCount.value >= 1
    requires forall i :: 1 <= i <= ans.taskCount.value ==>
      i in sol.tasks && i in ans.reference && i in ans.cases &&
      Checker.AgreeOnAll(sol.tasks[i], ans.reference[i], ans.cases[i])
    ensures Checker.RunTests(ans, sol).Ok?
    ensures var r := Checker.RunTests(ans, sol).value;
      |r| > 0 && (forall k :: 0 <= k < |r| ==> r[k].passed) &&
      Percent(r).passed == Percent(r).total
  {
    Checker.RunTestsOutcome(ans, sol);
    var r := Checker.RunTests(ans, sol).value;
    Checker.RunTestsReport(ans, sol);
    forall k | 0 <= k < |r|
      ensures r[k].passed
    {
      assert r[k].passed == Checker.Passes(ans, sol, k + 1);
    }
  }

  /** A student who defines no task scores every task false and a zero
      percentage, whatever the answer module's reference entries are. */
  lemma EmptySolutionScoresZero<A, V>(ans: Checker.AnswerModule<A, V>)
    requires ans.taskCount.Some? && ans.taskCount.value >= 1
    ensures Checker.RunTests(ans, Checker.SolutionModule(map[])).Ok?
    ensures var r := Checker.RunTests(ans, Checker.SolutionModule(map[])).value;
      |r| > 0 && (forall k :: 0 <= k < |r| ==> !r[k].passed) && Percent(r).passed == 0
  {
    var sol := Checker.SolutionModule(map[]);
    Checker.RunTestsOutcome(ans, sol);
    Checker.RunTestsReport(ans, sol);
  }
}

=== FILE: pystrings.dfy ===
/** The few Python `str` operations the grading tool relies on, written out
    with Python's semantics: `str.find` of one character, slicing with a
    possibly negative end, `str.replace(c, "")` and `str(n)` for a
    non-negative integer. */
module PyStrings {

  /** `s.find(c)`: the index of the first `c` in `s`, or -1 when there is none. */
  function Find(s: string, c: char): (r: int)
    ensures -1 <= r < |s|
    ensures r == -1 <==> c !in s
    ensures r >= 0 ==> s[r] == c && c !in s[..r]
  {
    if |s| == 0 then -1
    else if s[0] == c then 0
    else
      var k := Find(s[1..], c);
      assert s[1..][..if k < 0 then 0 else k] == s[1..if k < 0 then 1 else k + 1];
      if k == -1 then -1 else k + 1
  }

  /** `s[:k]`: a non-negative end is clamped to the length, a negative end
      counts back from the end of the string. */
  function SliceTo(s: string, k: int): (r: string)
    ensures r <= s
    ensures k >= |s| ==> r == s
    ensures 0 <= k <= |s| ==> |r| == k
    ensures k < 0 ==> |r| == if |s| + k >= 0 then |s| + k else 0
  {
    if k >= 0 then s[..if k <= |s| then k else |s|]
    else s[..if |s| + k >= 0 then |s| + k else 0]
  }

  /** `s.replace(c, "")`: every occurrence of `c` dropped, the other
      characters kept in order and with their multiplicities. */
  function RemoveAll(s: string, c: char): (r: string)
    ensures c !in r
    ensures |r| <= |s|
    ensures forall d :: d != c ==> multiset(r)[d] == multiset(s)[d]
  {
    if |s| == 0 then []
    else
      assert s == [s[0]] + s[1..];
      (if s[0] == c then [] else [s[0]]) + RemoveAll(s[1..], c)
  }

  /** Removing a character commutes with concatenation, so the characters
      that survive keep their relative order. */
  lemma {:induction false} RemoveAllAppend(a: string, b: string, c: char)
    ensures RemoveAll(a + b, c) == RemoveAll(a, c) + RemoveAll(b, c)
  {
    if |a| == 0 {
      assert a + b == b;
    } else {
      assert (a + b)[1..] == a[1..] + b;
      RemoveAllAppend(a[1..], b, c);
    }
  }

  /** A string without `c` is left unchanged. */
  lemma {:induction false} RemoveAllAbsent(s: string, c: char)
    requires c !in s
    ensures RemoveAll(s, c) == s
  {
    if |s| > 0 {
      assert c !in s[1..];
      RemoveAllAbsent(s[1..], c);
      assert s == [s[0]] + s[1..];
    }
  }

  /** Dropping the one dot between two dot-free strings joins them. */
  lemma RemoveSingleDot(a: string, b: string)
    requires '.' !in a && '.' !in b
    ensures RemoveAll(a + "." + b, '.') == a + b
  {
    var dot := RemoveAll(".", '.');
    assert dot == [] by {
      assert |dot| <= 1 && '.' !in dot;
    }
    RemoveAllAppend(a + ".", b, '.');
    RemoveAllAppend(a, ".", '.');
    RemoveAllAbsent(a, '.');
    RemoveAllAbsent(b, '.');
    assert RemoveAll(a + ".", '.') == a;
  }

  /** The digit character for `d`. */
  function DigitChar(d: nat): (c: char)
    requires d < 10
    ensures '0' <= c <= '9'
    ensures c as int - '0' as int == d
  {
    (d + '0' as int) as char
  }

  /** `str(n)` for `n >= 0`: the decimal digits of `n`, most significant
      first, with no leading zero. */
  function DecimalOf(n: nat): (s: string)
    ensures |s| >= 1
    ensures |s| == 1 <==> n < 10
    ensures s[|s| - 1] == DigitChar(n % 10)
    decreases n
  {
    if n < 10 then [DigitChar(n)]
    else DecimalOf(n / 10) + [DigitChar(n % 10)]
  }

  /** Distinct numbers have distinct decimal spellings. */
  lemma {:induction false} DecimalOfInjective(a: nat, b: nat)
    requires DecimalOf(a) == DecimalOf(b)
    ensures a == b
  {
    if a >= 10 && b >= 10 {
      var sa, sb := DecimalOf(a), DecimalOf(b);
      assert sa[..|sa| - 1] == DecimalOf(a / 10);
      assert sb[..|sb| - 1] == DecimalOf(b / 10);
      DecimalOfInjective(a / 10, b / 10);
      assert a % 10 == b % 10 by {
        assert DigitChar(a % 10) == DigitChar(b % 10);
      }
    }
  }

  /** Every character of `s` is a decimal digit. */
  predicate AllDigits(s: string) {
    forall k :: 0 <= k < |s| ==> '0' <= s[k] <= '9'
  }

  /** The number a string of decimal digits spells, most significant first
      (`int(s)` on such a string). */
  function ValueOf(s: string): (n: nat)
    requires AllDigits(s)
    ensures |s| == 0 ==> n == 0
    decreases |s|
  {
    if |s| == 0 then 0
    else ValueOf(s[..|s| - 1]) * 10 + (s[|s| - 1] as int - '0' as int)
  }

  /** `str(n)` is a well-formed decimal numeral: digits only, no leading zero
      unless it is `0` itself, and `int(str(n)) == n`. */
  lemma {:induction false} DecimalOfDigits(n: nat)
    ensures AllDigits(DecimalOf(n))
    ensures |DecimalOf(n)| > 1 ==> DecimalOf(n)[0] != '0'
    ensures ValueOf(DecimalOf(n)) == n
    decreases n
  {
    var s := DecimalOf(n);
    if n >= 10 {
      DecimalOfDigits(n / 10);
      var h := DecimalOf(n / 10);
      assert s == h + [DigitChar(n % 10)];
      assert s[..|s| - 1] == h;
      assert s[0] == h[0];
    }
  }
}

=== FILE: results.dfy ===
/** Optional values and success-or-error results, used in place of the
    source's `None`, missing attributes and raised exceptions. */
module Results {

  datatype Option<+T> = None | Some(value: T)

  datatype Result<+T, +E> = Ok(value: T) | Err(error: E)
}

=== FILE: scenarios.dfy ===
/** Worked cases of the grading tool, over argument pairs of integers and
    integer results. */
module Scenarios {
  import opened Results
  import Checker
  import Manager
  import Security
  import PyStrings

  type Args = (int, int)

  function Sum(p: Args): int { p.0 + p.1 }
  function Zero(p: Args): int { 0 }

  /** `TASK_COUNT = 2`, `task_1` is `a + b` with cases `(1, 2)` and
      `(3, 4)`, and `task_2` has its reference and an empty case list. */
  function TwoTaskAnswers(): Checker.AnswerModule<Args, int> {
    Checker.AnswerModule(Some(2), map[1 := Sum, 2 := Zero], map[1 := [(1, 2), (3, 4)], 2 := []])
  }

  /** A correct `task_1` and no `task_2` score true then false, half marks. */
  lemma CorrectFirstTaskOnly()
    ensures Checker.RunTests(TwoTaskAnswers(), Checker.SolutionModule(map[1 := Sum])) ==
      Ok([Checker.Entry("task_1", true), Checker.Entry("task_2", false)])
    ensures Manager.Percent([Checker.Entry("task_1", true), Checker.Entry("task_2", false)]) ==
      Manager.Ratio(1, 2)
  {
    var ans := TwoTaskAnswers();
    var sol := Checker.SolutionModule(map[1 := Sum]);
    var r := Checker.RunTests(ans, sol);
    assert Checker.Label(1) == "task_1" && Checker.Label(2) == "task_2";
    var cases := ans.cases[1];
    assert Checker.AgreeOnAll(Sum, Sum, cases);
    assert Checker.Passes(ans, sol, 1);
    assert !Checker.Passes(ans, sol, 2);
    assert Checker.Keys(r.value) == Checker.TaskLabels(2);
    assert r.value[0] == Checker.Entry("task_1", true);
    assert r.value[1] == Checker.Entry("task_2", false);
    assert |r.value| == 2;
    assert r.value == [Checker.Entry("task_1", true), Checker.Entry("task_2", false)];
  }

  /** A constant `task_1` fails on the first case `(1, 1)`, after exactly
      one comparison. */
  lemma ConstantAnswerFailsOnFirstCase()
    ensures Checker.CompareAll(Zero, Sum, [(1, 1)]) == Checker.Comparison(false, 1)
    ensures var ans := Checker.AnswerModule(Some(1), map[1 := Sum], map[1 := [(1, 1)]]);
      Checker.RunTests(ans, Checker.SolutionModule(map[1 := Zero])) == Ok([Checker.Entry("task_1", false)])
  {
    var ans := Checker.AnswerModule(Some(1), map[1 := Sum], map[1 := [(1, 1)]]);
    var sol := Checker.SolutionModule(map[1 := Zero]);
    var cases := ans.cases[1];
    assert sol.tasks[1](cases[0]) != ans.reference[1](cases[0]);
    assert !Checker.Passes(ans, sol, 1);
    assert Checker.Label(1) == "task_1";
    var r := Checker.RunTests(ans, sol);
    assert Checker.Keys(r.value) == Checker.TaskLabels(1);
    assert r.value[0] == Checker.Entry("task_1", false);
    assert |r.value| == 1;
    assert r.value == [Checker.Entry("task_1", false)];
  }

  /** A task whose generator yields nothing passes, whatever the student's
      function computes. */
  lemma EmptyGeneratorPasses()
    ensures Checker.RunTests(TwoTaskAnswers(), Checker.SolutionModule(map[2 := Sum])) ==
      Ok([Checker.Entry("task_1", false), Checker.Entry("task_2", true)])
  {
    var ans := TwoTaskAnswers();
    var sol := Checker.SolutionModule(map[2 := Sum]);
    var r := Checker.RunTests(ans, sol);
    assert Checker.Label(1) == "task_1" && Checker.Label(2) == "task_2";
    assert Checker.Passes(ans, sol, 2);
    assert !Checker.Passes(ans, sol, 1);
    assert Checker.Keys(r.value) == Checker.TaskLabels(2);
    assert r.value[0] == Checker.Entry("task_1", false);
    assert r.value[1] == Checker.Entry("task_2", true);
    assert |r.value| == 2;
    assert r.value == [Checker.Entry("task_1", false), Checker.Entry("task_2", true)];
  }

  /** The answer module lacks `task_2_args`: a student defining `task_2`
      aborts the run, while one without `task_2` is graded normally and the
      gap goes unnoticed. */
  lemma MissingCaseGenerator()
    ensures var ans := Checker.AnswerModule(Some(2), map[1 := Sum, 2 := Sum], map[1 := [(1, 2)]]);
      Checker.RunTests(ans, Checker.SolutionModule(map[1 := Sum, 2 := Sum])) ==
        Err(Checker.MissingReference(2)) &&
      Checker.RunTests(ans, Checker.SolutionModule(map[1 := Sum])) ==
        Ok([Checker.Entry("task_1", true), Checker.Entry("task_2", false)])
  {
    var ans := Checker.AnswerModule(Some(2), map[1 := Sum, 2 := Sum], map[1 := [(1, 2)]]);
    var good := Checker.SolutionModule(map[1 := Sum]);
    var r := Checker.RunTests(ans, good);
    assert Checker.Label(1) == "task_1" && Checker.Label(2) == "task_2";
    assert Checker.Passes(ans, good, 1);
    assert !Checker.Passes(ans, good, 2);
    assert Checker.Keys(r.value) == Checker.TaskLabels(2);
    assert r.value[0] == Checker.Entry("task_1", true);
    assert r.value[1] == Checker.Entry("task_2", false);
    assert |r.value| == 2;
    assert r.value == [Checker.Entry("task_1", true), Checker.Entry("task_2", false)];
  }

  /** Without `TASK_COUNT` nothing is graded. */
  lemma MissingTaskCountAborts()
    ensures Checker.RunTests(Checker.AnswerModule(None, map[1 := Sum], map[1 := [(1, 2)]]),
                             Checker.SolutionModule(map[1 := Sum])) ==
      Err(Checker.MissingTaskCount)
  {
  }

  /** Three students, each skipped for a different reason: no folder, no
      solution file, and a file the security pre-check rejects (for one,
      a file calling `subprocess.run(...)`). Nobody is graded, so the run
      exits without a table. */
  lemma EveryoneSkipped(code: string)
    requires !Security.CheckBeforeRun(code)
    ensures var ws := Manager.Workspace(map[
              "bob" := map[],
              "eve" := map["sem_01.py" := Manager.SourceFile(code, Checker.SolutionModule(map[1 := Sum]))]]);
      var roster := [Manager.Student("Ann", "ann@uni.org", "ann", None),
                     Manager.Student("Bob", "bob@uni.org", "bob", None),
                     Manager.Student("Eve", "eve@uni.org", "eve", None)];
      Manager.Check(roster, ws, TwoTaskAnswers(), "sem_01") == Manager.NothingGraded
  {
    var ws := Manager.Workspace(map[
              "bob" := map[],
              "eve" := map["sem_01.py" := Manager.SourceFile(code, Checker.SolutionModule(map[1 := Sum]))]]);
    var roster := [Manager.Student("Ann", "ann@uni.org", "ann", None),
                   Manager.Student("Bob", "bob@uni.org", "bob", None),
                   Manager.Student("Eve", "eve@uni.org", "eve", None)];
    assert Manager.SolutionFile("sem_01") == "sem_01.py";
    assert !Manager.Eligible(roster[0], ws, "sem_01");
    assert !Manager.Eligible(roster[1], ws, "sem_01");
    assert !Manager.Eligible(roster[2], ws, "sem_01");
    assert Manager.EligibleStudents(roster[2..], ws, "sem_01") == [];
    assert Manager.EligibleStudents(roster[1..], ws, "sem_01") == [];
    assert Manager.EligibleStudents(roster, ws, "sem_01") == [];
  }

  /** The folder of an address `first.last@domain` is `firstlast`. */
  lemma FolderNameOfDottedAddress(first: string, last: string, domain: string)
    requires '.' !in first && '.' !in last && '@' !in first && '@' !in last
    ensures Manager.FolderName(first + "." + last + "@" + domain) == first + last
  {
    var local := first + "." + last;
    assert '@' !in local;
    Manager.FolderNameOfAddress(local, domain);
    PyStrings.RemoveSingleDot(first, last);
  }

  /** Without `@` the last character of the address is lost. */
  lemma FolderNameLosesLastCharacter(first: string, last: string, c: char)
    requires '.' !in first && '.' !in last && '@' !in first && '@' !in last
    requires c != '@'
    ensures Manager.FolderName(first + "." + last + [c]) == first + last
  {
    var email := first + "." + last + [c];
    Manager.FolderNameWithoutAt(email);
    assert email[..|email| - 1] == first + "." + last;
    PyStrings.RemoveSingleDot(first, last);
  }
}

=== FILE: security.dfy ===
/** The security pre-check of app/security.py: a submission's text is
    accepted only when none of thirteen banned regular expressions is found
    anywhere in it.

    Twelve of the expressions are plain literals (their `\.` is an escaped
    dot) and the last, `answers\.sem_[0-9][0-9]`, is a literal followed by two
    ASCII digits, so a pattern is modelled as a literal text plus a count of
    trailing digits, and `re.search` as an unanchored, leftmost search. */
module Security {
  import opened Results

  /** A banned expression: a literal text followed by `digits` characters
      of the class `[0-9]`. */
  datatype Pattern = Pattern(literal: string, digits: nat)

  /** Membership in the regex class `[0-9]`: ASCII digits only. */
  predicate IsDigit(c: char) {
    '0' <= c <= '9'
  }

  function Length(p: Pattern): nat {
    |p.literal| + p.digits
  }

  /** `p` matches the characters of `text` starting at index `i`. */
  predicate MatchesAt(p: Pattern, text: string, i: int) {
    0 <= i && i + Length(p) <= |text| &&
    text[i..i + |p.literal|] == p.literal &&
    forall k :: i + |p.literal| <= k < i + Length(p) ==> IsDigit(text[k])
  }

  /** `re.search(p, text)` finds something: `p` matches at some position. */
  ghost predicate Occurs(p: Pattern, text: string) {
    exists i :: MatchesAt(p, text, i)
  }

  /** The twelve literal entries of `_BANNED_EXPRESSIONS`, in source order,
      with `\.` written as the dot it matches. */
  const BannedLiterals: seq<string> := [
    "open",
    "os.system",
    "subprocess.",
    "google_credentials",
    "credentials.json",
    "token.json",
    ".env",
    "sys.",
    ".load",
    ".dump",
    "session.session",
    "config.json"
  ]

  /** `answers\.sem_[0-9][0-9]`. */
  const SemPattern: Pattern := Pattern("answers.sem_", 2)

  /** All thirteen banned expressions, in source order. */
  const Banned: seq<Pattern> := [
    Pattern(BannedLiterals[0], 0),
    Pattern(BannedLiterals[1], 0),
    Pattern(BannedLiterals[2], 0),
    Pattern(BannedLiterals[3], 0),
    Pattern(BannedLiterals[4], 0),
    Pattern(BannedLiterals[5], 0),
    Pattern(BannedLiterals[6], 0),
    Pattern(BannedLiterals[7], 0),
    Pattern(BannedLiterals[8], 0),
    Pattern(BannedLiterals[9], 0),
    Pattern(BannedLiterals[10], 0),
    Pattern(BannedLiterals[11], 0),
    SemPattern
  ]

  /** Leftmost position at or after `i` where `p` matches, if any. */
  function SearchFrom(p: Pattern, text: string, i: nat): (r: Option<nat>)
    ensures r.Some? ==> i <= r.value && MatchesAt(p, text, r.value)
    ensures r.Some? ==> forall j :: i <= j < r.value ==> !MatchesAt(p, text, j)
    ensures r.None? ==> forall j :: i <= j ==> !MatchesAt(p, text, j)
    decreases |text| - i
  {
    if i + Length(p) > |text| then None
    else if MatchesAt(p, text, i) then Some(i)
    else SearchFrom(p, text, i + 1)
  }

  /** `re.search(p, text)`: the leftmost match, found exactly when `p`
      occurs somewhere in `text`. */
  function Search(p: Pattern, text: string): (r: Option<nat>)
    ensures r.Some? ==> MatchesAt(p, text, r.value)
    ensures r.Some? ==> forall j :: 0 <= j < r.value ==> !MatchesAt(p, text, j)
    ensures r.None? <==> !Occurs(p, text)
  {
    SearchFrom(p, text, 0)
  }

  /** Index of the first banned expression, from `j` on, that `text`
      contains; `all(...)` in the source stops at exactly this one. */
  function FirstBanned(text: string, j: nat): (r: Option<nat>)
    requires j <= |Banned|
    ensures r.Some? ==> j <= r.value < |Banned| && Occurs(Banned[r.value], text)
    ensures r.Some? ==> forall m :: j <= m < r.value ==> !Occurs(Banned[m], text)
    ensures r.None? ==> forall m :: j <= m < |Banned| ==> !Occurs(Banned[m], text)
    decreases |Banned| - j
  {
    if j == |Banned| then None
    else if Search(Banned[j], text).Some? then Some(j)
    else FirstBanned(text, j + 1)
  }

  /** `check_before_run` applied to the file's text. */
  function CheckBeforeRun(text: string): (ok: bool)
    ensures ok <==> forall m :: 0 <= m < |Banned| ==> !Occurs(Banned[m], text)
  {
    FirstBanned(text, 0).None?
  }

  /** A match found inside `inner` is still a match, shifted, inside any
      text that contains `inner`. */
  lemma ShiftMatch(p: Pattern, inner: string, before: string, after: string, i: int)
    requires MatchesAt(p, inner, i)
    ensures MatchesAt(p, before + inner + after, |before| + i)
  {
    var whole := before + inner + after;
    var j := |before| + i;
    assert whole[j..j + Length(p)] == inner[i..i + Length(p)];
    assert whole[j..j + |p.literal|] == inner[i..i + |p.literal|];
    forall k | j + |p.literal| <= k < j + Length(p)
      ensures IsDigit(whole[k])
    {
      assert whole[k] == inner[k - |before|];
    }
  }

  /** Monotonicity: a rejected text stays rejected inside any larger text. */
  lemma {:induction false} RejectionMonotone(inner: string, before: string, after: string)
    requires !CheckBeforeRun(inner)
    ensures !CheckBeforeRun(before + inner + after)
  {
    var m :| 0 <= m < |Banned| && Occurs(Banned[m], inner);
    var i :| MatchesAt(Banned[m], inner, i);
    ShiftMatch(Banned[m], inner, before, after, i);
  }

  /** Every banned literal is rejected wherever it appears: the scan knows
      nothing of comments, strings or word boundaries. */
  lemma BannedLiteralRejected(k: nat, before: string, after: string)
    requires k < |BannedLiterals|
    ensures !CheckBeforeRun(before + BannedLiterals[k] + after)
  {
    var lit := BannedLiterals[k];
    assert Banned[k] == Pattern(lit, 0);
    assert MatchesAt(Banned[k], lit, 0) by {
      assert lit[0..|lit|] == lit;
    }
    RejectionMonotone(lit, before, after);
  }

  /** A reference to a two-digit reference module, with anything around it,
      is rejected. */
  lemma SemReferenceRejected(before: string, d1: char, d2: char, after: string)
    requires IsDigit(d1) && IsDigit(d2)
    ensures !CheckBeforeRun(before + ("answers.sem_" + [d1, d2]) + after)
  {
    var inner := "answers.sem_" + [d1, d2];
    assert inner[0..12] == "answers.sem_";
    assert MatchesAt(SemPattern, inner, 0);
    assert Banned[12] == SemPattern;
    RejectionMonotone(inner, before, after);
  }

  /** `answers.sem_` followed by a single digit and then a non-digit (or
      nothing) is not a match of the reference-module pattern there. */
  lemma SingleDigitSemNotMatched(before: string, d: char, after: string)
    requires IsDigit(d)
    requires |after| == 0 || !IsDigit(after[0])
    ensures !MatchesAt(SemPattern, before + "answers.sem_" + [d] + after, |before|)
  {
    var text := before + "answers.sem_" + [d] + after;
    if |before| + 14 <= |text| {
      assert text[|before| + 13] == after[0];
    }
  }

  /** The empty submission is accepted: every banned expression is
      non-empty. */
  lemma EmptyTextAccepted()
    ensures CheckBeforeRun("")
  {
    forall m | 0 <= m < |Banned|
      ensures !Occurs(Banned[m], "")
    {
      assert Length(Banned[m]) > 0;
    }
  }

  /** A minimal file holding nothing but one banned expression (digits
      instantiated as `0`) is rejected, for each of the thirteen. */
  lemma EachBannedExpressionRejectedAlone(m: nat)
    requires m < |Banned|
    ensures m < |BannedLiterals| ==> !CheckBeforeRun(BannedLiterals[m])
    ensures m == |BannedLiterals| ==> !CheckBeforeRun("answers.sem_00")
  {
    if m < |BannedLiterals| {
      BannedLiteralRejected(m, "", "");
      assert "" + BannedLiterals[m] + "" == BannedLiterals[m];
    } else {
      SemReferenceRejected("", '0', '0', "");
      assert "" + ("answers.sem_" + ['0', '0']) + "" == "answers.sem_00";
    }
  }

  /** A match of a banned expression anywhere rejects the text. */
  lemma MatchRejects(text: string, m: nat, i: int)
    requires m < |Banned| && MatchesAt(Banned[m], text, i)
    ensures !CheckBeforeRun(text)
  {
  }

  /** The bare substring `open` inside a longer word is rejected. */
  lemma ReopenRejected()
    ensures !CheckBeforeRun("reopen")
  {
    var t := "reopen";
    assert MatchesAt(Banned[0], t, 2) by {
      assert t[2..6] == "open";
    }
    MatchRejects(t, 0, 2);
  }

  /** A word that merely starts with `open` is rejected. */
  lemma OpenedRejected()
    ensures !CheckBeforeRun("opened")
  {
    var t := "opened";
    assert MatchesAt(Banned[0], t, 0) by {
      assert t[0..4] == "open";
    }
    MatchRejects(t, 0, 0);
  }

  /** `open` inside a comment is rejected: the scan is syntax-unaware. */
  lemma OpenInCommentRejected()
    ensures !CheckBeforeRun("# open the file")
  {
    var t := "# open the file";
    assert MatchesAt(Banned[0], t, 2) by {
      assert t[2..6] == "open";
    }
    MatchRejects(t, 0, 2);
  }

  /** `.env` is a literal-dot substring match, so `os.environ` is rejected. */
  lemma EnvironRejected()
    ensures !CheckBeforeRun("os.environ")
  {
    var t := "os.environ";
    assert MatchesAt(Banned[6], t, 2) by {
      assert t[2..6] == ".env";
    }
    MatchRejects(t, 6, 2);
  }

  /** `.load` rejects `json.loads`. */
  lemma JsonLoadsRejected()
    ensures !CheckBeforeRun("json.loads")
  {
    var t := "json.loads";
    assert MatchesAt(Banned[8], t, 4) by {
      assert t[4..9] == ".load";
    }
    MatchRejects(t, 8, 4);
  }

  /** `.dump` rejects `json.dumps`. */
  lemma JsonDumpsRejected()
    ensures !CheckBeforeRun("json.dumps")
  {
    var t := "json.dumps";
    assert MatchesAt(Banned[9], t, 4) by {
      assert t[4..9] == ".dump";
    }
    MatchRejects(t, 9, 4);
  }

  /** A file calling `subprocess.run(...)` is rejected. */
  lemma SubprocessCallRejected()
    ensures !CheckBeforeRun("subprocess.run(...)")
  {
    var t := "subprocess.run(...)";
    assert MatchesAt(Banned[2], t, 0) by {
      assert t[0..11] == "subprocess.";
    }
    MatchRejects(t, 2, 0);
  }

  /** Importing a two-digit reference module is rejected. */
  lemma TwoDigitSemRejected()
    ensures !CheckBeforeRun("import answers.sem_01")
  {
    var t := "import answers.sem_01";
    assert MatchesAt(Banned[12], t, 7) by {
      assert t[7..19] == "answers.sem_";
      assert IsDigit(t[19]) && IsDigit(t[20]);
    }
    MatchRejects(t, 12, 7);
  }

  /** More than two digits after `answers.sem_` still contain a match. */
  lemma ThreeDigitSemRejected()
    ensures !CheckBeforeRun("answers.sem_123")
  {
    var t := "answers.sem_123";
    assert MatchesAt(Banned[12], t, 0) by {
      assert t[0..12] == "answers.sem_";
      assert IsDigit(t[12]) && IsDigit(t[13]);
    }
    MatchRejects(t, 12, 0);
  }
}
